=== FILE: README.md ===
# PluginManager lifecycle controller

A model of the plugin lifecycle controller of the PluginManager Bukkit
plugin (`CorePlugin`): the `/pload`, `/punload` and `/preload` command
handler, the helper that loads a plugin from `plugins/<name>.jar`, and the
helper that disables a plugin and scrubs it from the host plugin manager's
internal `plugins` list and `lookupNames` table.

The host runtime (Bukkit's plugin manager) is replaced by explicit state:

- `Registry.HostState`: the ordered `plugins` list of handles, the
  `lookupNames` table from key to handle, the set of enabled plugins, and a
  log of the host calls made (archive load, enable, disable). The log is how
  the model states the order of steps and that a no-op makes no mutating
  host call (lookups by name are not logged).
- `Host.PluginManager`: the same state as a class whose fields the
  controller changes in place. Its `State()` function is the value above.
- How the host turns a name into a table key is a parameter, `key`. The
  model does not assume what it is. Results that need the host's key to
  agree with the controller's own key (spaces replaced by underscores) say so
  in their requires.
- The files that exist as regular files are a set of paths. What the host's
  archive loader does with an archive is an input, `LoadOutcome`: it rejects
  it with one of the three exceptions the controller catches, or it produces
  a plugin.
- The result of the reflective field look-up is an input, `FieldAccess`. It
  says whether each internal structure was fetched and had the expected type.

Module layout: `JavaLang` holds `equalsIgnoreCase` and `replace(char, char)`.
`JavaUtil` holds `List.remove(Object)`. `Registry` and `Host` hold the host
state. `Lifecycle` holds the controller as functions, with the lemmas.
`CorePlugin` holds the controller as methods, proved to follow those
functions.

Some behaviours of the code are easy to misread, and the model keeps them as written:

- A no-op is not reported as a distinct outcome. The handler sends the
  "not loaded" or "already loaded" note and then the usual status line. So
  `punload` of an unloaded name reports success, and so does `pload` of a
  loaded name (`UnloadOfUnregistered`, `LoadOfRegistered`).
- `preload` is not disable-then-enable of the same plugin. It is a full
  unload followed by a fresh load from the archive (`PreloadReloads`).
- For `preload` the status test is `(registered) || (not registered)`, so it
  always reports success, even when nothing could be loaded
  (`PreloadAlwaysReportsSuccess`, `PreloadOfUnregistered`). A reload of a
  registered plugin whose archive is missing or rejected unloads it, loads
  nothing, and reports only success, so the name no longer resolves
  (`PreloadWithoutArchiveLosesPlugin`).
- A reload does not always end with the plugin enabled. If the unload step
  leaves the name resolvable, because the table could not be reached or the
  host keys names differently, the load step sees the name as loaded. It
  sends the "already loaded" note, loads nothing and reports success, and the
  plugin stays disabled (`PreloadLeavesDisabledWhenNameSurvives`,
  `PreloadWithoutTableLeavesDisabled`).
- The success test looks up the command's argument, not the loaded plugin.
  If an archive `plugins/<name>.jar` holds a plugin whose own name the host
  files under a different key, `pload` loads and enables it and then reports
  failure. The load lemmas (`LoadRegistersIffArchive`,
  `LoadCommandRegistersIffArchive`) therefore require that the new plugin's
  name has the same key as the argument.

## Model

| member | source | states |
|---|---|---|
| `Lifecycle.Command` | src/org/airmc/pm/core/CorePlugin.java:39-79 | the reply has one to three lines; with an argument it has no usage line and ends with Success or Failure |
| `Lifecycle.Classify` | src/org/airmc/pm/core/CorePlugin.java:44-47 | both flags are set only for a label equal to `preload` ignoring case |
| `Lifecycle.Status` | src/org/airmc/pm/core/CorePlugin.java:67-73 | the closing line is Success or Failure; with neither flag it is Failure, with both it is Success |
| `Lifecycle.ArchivePath` | src/org/airmc/pm/core/CorePlugin.java:129 | the path is `plugins/`, then the name, then `.jar`; the name can be read back from it |
| `Lifecycle.Load` | src/org/airmc/pm/core/CorePlugin.java:125-139 | loading only adds: the list keeps its old elements as a prefix, no table key or enabled plugin is lost, and at most two host calls are appended |
| `Lifecycle.Unload` | src/org/airmc/pm/core/CorePlugin.java:165-195 | unloading only removes: the list loses at most one element, the only key that can go is the plugin's own `LookupKey`, the plugin is disabled, and the disable is the only logged call |
| `Registry.GetPlugin` | src/org/airmc/pm/core/CorePlugin.java:52 | the lookup finds a plugin iff the name is registered; the plugin is a table entry, and in a consistent registry a listed plugin with the same key as the name |
| `Registry.HostLoad` | src/org/airmc/pm/core/CorePlugin.java:133 | the load is logged; at most one plugin is appended and no table key is lost; a rejection leaves list and table unchanged; enabling is untouched |
| `Registry.HostEnable` | src/org/airmc/pm/core/CorePlugin.java:134 | list and table are unchanged; the plugin is enabled and no other plugin's state changes |
| `Registry.HostDisable` | src/org/airmc/pm/core/CorePlugin.java:186 | list and table are unchanged; the plugin is disabled and no other plugin's state changes |
| `Lifecycle.PreloadLeavesDisabledWhenNameSurvives` | src/org/airmc/pm/core/CorePlugin.java:51-73 | if the unload step leaves the name resolvable, `preload` sends the already-loaded note, loads nothing, reports success and leaves the plugin disabled |
| `Lifecycle.PreloadWithoutTableLeavesDisabled` | src/org/airmc/pm/core/CorePlugin.java:51-73 | on a consistent registry with the table unreachable, `preload` disables the plugin and cuts its first copy out of the list, leaving the rest of the list and the whole table as they were; the plugin's entry is left behind, so the registry is no longer consistent; the note and success are reported |
| `Lifecycle.PreloadWithoutArchiveLosesPlugin` | src/org/airmc/pm/core/CorePlugin.java:51-73 | on a consistent registry with both structures reached and the host keying the plugin's name by `LookupKey`, a reload whose archive is missing or rejected reports only Success, yet the plugin is gone from the list, the table and the enabled set, and the name no longer resolves |
| `JavaLang.EqualsIgnoreCase` | src/org/airmc/pm/core/CorePlugin.java:44-47 | strings that compare equal ignoring case have the same length, and every string equals itself ignoring case |
| `Lifecycle.UnloadStep` | src/org/airmc/pm/core/CorePlugin.java:51-57 | at most one note; no note iff the name resolves; an unresolved name sends the "not loaded" note and changes nothing; a resolved one logs only the disable of the plugin it resolves to |
| `Lifecycle.LoadStep` | src/org/airmc/pm/core/CorePlugin.java:59-65 | at most one note; no note iff the name does not resolve; a resolved name sends the "already loaded" note and changes nothing; an unresolved name without an archive changes nothing |
| `Host.PluginManager.GetPlugin` | src/org/airmc/pm/core/CorePlugin.java:52 | finds a plugin iff the host's key of the name is in the table, and then returns the table's entry for that key |
| `CorePlugin.OnCommand` | src/org/airmc/pm/core/CorePlugin.java:39-79 | always reports the command handled; its messages and the new host state are exactly `Lifecycle.Command` of the old state |
| `CorePlugin.LoadPlugin` | src/org/airmc/pm/core/CorePlugin.java:125-140 | the new host state is `Lifecycle.Load` of the old one |
| `CorePlugin.UnloadPlugin` | src/org/airmc/pm/core/CorePlugin.java:165-206 | a null plugin changes nothing; otherwise the new host state is `Lifecycle.Unload` of the old one |
| `Host.PluginManager.LoadPlugin` | src/org/airmc/pm/core/CorePlugin.java:133 | the host's archive load is recorded; an accepted plugin is listed and filed; a rejection returns no plugin |
| `Host.PluginManager.EnablePlugin` | src/org/airmc/pm/core/CorePlugin.java:134 | the plugin becomes enabled and the call is recorded |
| `Host.PluginManager.DisablePlugin` | src/org/airmc/pm/core/CorePlugin.java:186 | the plugin becomes disabled, stays registered, and the call is recorded |
| `JavaLang.EqualsIgnoreCaseIff` | src/org/airmc/pm/core/CorePlugin.java:44-47 | comparing labels ignoring case is the same as comparing their lower-cased forms |
| `Lifecycle.ClassifyCases` | src/org/airmc/pm/core/CorePlugin.java:44-47 | `punload` sets unload only, `pload` load only, `preload` both, any other label neither (each an if-and-only-if) |
| `Lifecycle.ClassifyIgnoresCase` | src/org/airmc/pm/core/CorePlugin.java:44-47 | labels that differ only in letter case get the same flags |
| `Lifecycle.NoArgumentsUsageOnly` | src/org/airmc/pm/core/CorePlugin.java:42-78 | with no argument only the usage line is sent and the host state, including its call log, is unchanged |
| `Lifecycle.StatusReflectsRegistration` | src/org/airmc/pm/core/CorePlugin.java:67-73 | a command with an argument ends with exactly one status line; it is Success iff (load and the name resolves afterwards) or (unload and it does not) |
| `Lifecycle.UnknownLabelFails` | src/org/airmc/pm/core/CorePlugin.java:44-73 | an unrecognised label changes nothing and reports only failure |
| `Lifecycle.UnloadOfUnregistered` | src/org/airmc/pm/core/CorePlugin.java:51-73 | `punload` of a name that does not resolve sends the note, makes no mutating host call, changes nothing, then reports success |
| `Lifecycle.LoadOfRegistered` | src/org/airmc/pm/core/CorePlugin.java:59-73 | `pload` of a name that resolves sends the note, changes nothing, then reports success |
| `Lifecycle.PreloadAlwaysReportsSuccess` | src/org/airmc/pm/core/CorePlugin.java:67-73 | with both flags set, the status line is Success whatever the steps did |
| `Lifecycle.PreloadOfUnregistered` | src/org/airmc/pm/core/CorePlugin.java:51-73 | `preload` of a name that does not resolve sends the note and then loads, because the load guard is checked after the unload step |
| `Lifecycle.UnloadRemovesHandleKey` | src/org/airmc/pm/core/CorePlugin.java:165-195 | `punload` removes the table key of the plugin's own name, not of the argument; every other key keeps its entry; the only host call is the disable |
| `Lifecycle.UnloadCommandUnregisters` | src/org/airmc/pm/core/CorePlugin.java:51-73 | `punload` of a registered plugin in a consistent registry makes the name unresolvable, keeps the registry consistent, disables it, reports success |
| `Lifecycle.LoadCommandRegistersIffArchive` | src/org/airmc/pm/core/CorePlugin.java:59-73 | `pload` of an unresolved name reports success iff its archive is a regular file and the host accepts it; the name then resolves; the registry stays consistent |
| `Lifecycle.PreloadReloads` | src/org/airmc/pm/core/CorePlugin.java:51-73 | `preload` of a registered plugin disables it before the archive is loaded again; the name then resolves to the new, enabled plugin and success is reported |
| `Lifecycle.UnloadThenLoadSucceeds` | src/org/airmc/pm/core/CorePlugin.java:51-73 | after `punload` of a registered plugin, `pload` of the same name succeeds again while the archive is still there |
| `Lifecycle.LoadEffect` | src/org/airmc/pm/core/CorePlugin.java:125-139 | nothing happens unless the name is present and non-empty and its archive is a regular file; a rejection only records the attempted load; an accepted plugin is listed, filed and enabled, in that order |
| `Lifecycle.LoadRegistersIffArchive` | src/org/airmc/pm/core/CorePlugin.java:125-139 | for an unregistered name, loading registers it iff its archive is a regular file and the host accepts it; consistency is kept |
| `Lifecycle.UnloadEffect` | src/org/airmc/pm/core/CorePlugin.java:165-195 | unload disables the plugin, cuts its first copy out of the list only when the list was reached, and removes its key only when the table was reached; the rest of the list keeps its order and the rest of the table its entries |
| `Lifecycle.UnloadPreservesConsistency` | src/org/airmc/pm/core/CorePlugin.java:185-195 | with both structures reached, unloading removes the plugin from both; it is left disabled and unresolvable and the registry stays consistent |
| `Lifecycle.UnloadWithoutTableKeepsName` | src/org/airmc/pm/core/CorePlugin.java:170-195 | when the table could not be reached, the plugin is still disabled but its name still resolves |
| `Lifecycle.LookupKey` | src/org/airmc/pm/core/CorePlugin.java:193-195 | the removal key keeps the name's length and every non-space character, turns each space into `_`, and holds no space |
| `Lifecycle.LookupKeyOfSpaceFree` | src/org/airmc/pm/core/CorePlugin.java:194 | a name without spaces is its own key |
| `JavaLang.ReplaceChar` | src/org/airmc/pm/core/CorePlugin.java:194 | replacing a character keeps the length and every other character and replaces each occurrence |
| `JavaUtil.RemoveFirst` | src/org/airmc/pm/core/CorePlugin.java:189-190 | removing an absent element changes nothing; removing a present one shortens the list by one |
| `JavaUtil.RemoveFirstAt` | src/org/airmc/pm/core/CorePlugin.java:189-190 | removal cuts out exactly the first occurrence and keeps the order of the rest |
| `JavaUtil.RemoveFirstMultiset` | src/org/airmc/pm/core/CorePlugin.java:189-190 | exactly one copy of the element goes and every other element stays |
| `JavaUtil.RemoveFirstKeepsOthers` | src/org/airmc/pm/core/CorePlugin.java:189-190 | every other element keeps its membership |
| `JavaUtil.RemoveFirstNoDuplicates` | src/org/airmc/pm/core/CorePlugin.java:189-190 | on a duplicate-free list, removal leaves no copy of the element and no duplicates |
| `Registry.HostLoadPreservesConsistency` | src/org/airmc/pm/core/CorePlugin.java:133 | a host load of a plugin neither listed nor filed under its key keeps the registry consistent and makes the plugin's name resolve |

## Left out

- Reflective field access (`getField`, lines 97-115): a runtime mechanism of the JVM. Its result for each structure is the input `FieldAccess`.
- `File.exists`/`isFile` (line 130): file-system queries. They are the given set of paths that exist as regular files; `Host.PluginManager.IsFile` is only membership in that set.
- Bukkit's `loadPlugin`, `enablePlugin`, `disablePlugin` and `getPlugin` internals. They live in the host library. They are modelled only as effects on the registry state, with the host's key function left abstract. The host load's outcome is an input.
- Closing the plugin's `URLClassLoader` and its `IOException` handling (lines 197-204): resource I/O that does not affect the registry.
- The `synchronized` locking of `loadPlugin` and `unloadPlugin`: it exists for concurrency, and the model is sequential.
- `sendMessage` formatting, the usage line's lower-cased label and `printStackTrace` logging: outcomes are the `Message` enumeration.
- Plugin equality: `plugins.contains` and `plugins.remove` (lines 189-190) use the host's `Plugin.equals`, which compares plugins by name. The model compares handles structurally (`Handle(id, name)`), so on a list holding two distinct plugins with the same name it removes the given handle where the host would remove the first name-equal one.
- JavaLang.EqualsIgnoreCase: case mapping covers ASCII letters only, not Unicode case mapping.
- CorePlugin.OnCommand: a null label or a null argument cannot come from the host's command dispatch and is not modelled. The null name that `loadPlugin` guards against is modelled as `None`.

=== FILE: core_plugin.dfy ===
/**
 * CorePlugin's command handler and its two helpers, as methods that change
 * the host's plugin manager step by step. Each is proved to leave the manager
 * in the state the matching function of module Lifecycle describes, so every
 * lemma proved there about that function holds of the method.
 */
module CorePlugin {
  import opened Wrappers
  import opened JavaLang
  import opened JavaUtil
  import opened Registry
  import opened Host
  import opened Lifecycle

  /**
   * onCommand: classify the label, run the unload step and then the load step
   * when asked for, each behind its registration check, and close with the
   * status line. The handler always reports the command as handled.
   */
  method OnCommand(pm: PluginManager, commandLabel: string, args: seq<string>, access: FieldAccess,
                   outcome: LoadOutcome)
    returns (messages: seq<Message>, handled: bool)
    modifies pm
    ensures handled
    ensures Reply(pm.State(), messages) ==
            Command(old(pm.State()), pm.key, pm.files, commandLabel, args, access, outcome)
  {
    messages := [];
    if |args| > 0 {
      var unload := EqualsIgnoreCase(commandLabel, "preload") || EqualsIgnoreCase(commandLabel, "punload");
      var load := EqualsIgnoreCase(commandLabel, "pload") || EqualsIgnoreCase(commandLabel, "preload");
      var pluginName := args[0];

      if unload {
        if pm.GetPlugin(pluginName).Some? {
          UnloadPlugin(pm, pm.GetPlugin(pluginName), access);
        } else {
          messages := messages + [NotLoadedNote];
        }
      }

      if load {
        if pm.GetPlugin(pluginName).None? {
          LoadPlugin(pm, Some(pluginName), outcome);
        } else {
          messages := messages + [AlreadyLoadedNote];
        }
      }

      if (load && pm.GetPlugin(pluginName).Some?) || (unload && pm.GetPlugin(pluginName).None?) {
        messages := messages + [Success];
      } else {
        messages := messages + [Failure];
      }
    } else {
      messages := [Usage];
    }
    handled := true;
  }

  /**
   * loadPlugin: a missing or empty name, or an archive that is not a regular
   * file, ends the call; otherwise the host loads the archive and, unless it
   * rejected it, enables the new plugin.
   */
  method LoadPlugin(pm: PluginManager, pluginName: Option<string>, outcome: LoadOutcome)
    modifies pm
    ensures pm.State() == Load(old(pm.State()), pm.key, pm.files, pluginName, outcome)
  {
    if pluginName.Some? && |pluginName.value| > 0 {
      var archive := ArchivePath(pluginName.value);
      if pm.IsFile(archive) {
        var pl := pm.LoadPlugin(archive, outcome);
        if pl.Some? {
          pm.EnablePlugin(pl.value);
        }
      }
    }
  }

  /**
   * unloadPlugin: for a non-null plugin, disable it, then remove it from the
   * host's list and the key of its own name from the host's table, each only
   * when that structure was reached and holds it.
   */
  method UnloadPlugin(pm: PluginManager, plugin: Option<Handle>, access: FieldAccess)
    modifies pm
    ensures plugin.None? ==> pm.State() == old(pm.State())
    ensures plugin.Some? ==> pm.State() == Unload(old(pm.State()), plugin.value, access)
  {
    if plugin.Some? {
      var h := plugin.value;
      var name := h.name;

      pm.DisablePlugin(h);

      if access.pluginsFound && h in pm.plugins {
        pm.plugins := RemoveFirst(pm.plugins, h);
      }

      if access.lookupNamesFound && LookupKey(name) in pm.lookupNames {
        pm.lookupNames := pm.lookupNames - {LookupKey(name)};
      }
    }
  }
}

=== FILE: java_lang.dfy ===
/**
 * The few java.lang.String operations the lifecycle controller relies on:
 * case-insensitive comparison (String.equalsIgnoreCase) and single-character
 * replacement (String.replace(char, char)). Case mapping covers ASCII letters.
 */
module JavaLang {

  /** Character.toLowerCase, restricted to ASCII letters. */
  function ToLowerChar(c: char): char {
    if 'A' <= c <= 'Z' then (c as int + 32) as char else c
  }

  /** Character.toUpperCase, restricted to ASCII letters. */
  function ToUpperChar(c: char): char {
    if 'a' <= c <= 'z' then (c as int - 32) as char else c
  }

  /** String.toLowerCase: every character lower-cased, nothing else changes. */
  function ToLower(s: string): (r: string)
    ensures |r| == |s|
    ensures forall i :: 0 <= i < |s| ==> r[i] == ToLowerChar(s[i])
  {
    if s == [] then [] else [ToLowerChar(s[0])] + ToLower(s[1..])
  }

  /**
   * The per-character test of String.regionMatches(true, ...): the two
   * characters are equal, or equal once upper-cased, or equal once upper-cased
   * and then lower-cased.
   */
  predicate CharEqualsIgnoreCase(a: char, b: char) {
    || a == b
    || ToUpperChar(a) == ToUpperChar(b)
    || ToLowerChar(ToUpperChar(a)) == ToLowerChar(ToUpperChar(b))
  }

  /** String.equalsIgnoreCase: same length and every position matches ignoring case. */
  function EqualsIgnoreCase(a: string, b: string): (r: bool)
    ensures r ==> |a| == |b|
    ensures a == b ==> r
  {
    |a| == |b| && (a == [] || (CharEqualsIgnoreCase(a[0], b[0]) && EqualsIgnoreCase(a[1..], b[1..])))
  }

  lemma CharEqualsIgnoreCaseIff(a: char, b: char)
    ensures CharEqualsIgnoreCase(a, b) <==> ToLowerChar(a) == ToLowerChar(b)
  {
  }

  /** Comparing ignoring case is the same as comparing the lower-cased strings. */
  lemma {:induction false} EqualsIgnoreCaseIff(a: string, b: string)
    ensures EqualsIgnoreCase(a, b) <==> ToLower(a) == ToLower(b)
  {
    if |a| != |b| {
      assert |ToLower(a)| != |ToLower(b)|;
    } else if a != [] {
      EqualsIgnoreCaseIff(a[1..], b[1..]);
      CharEqualsIgnoreCaseIff(a[0], b[0]);
      assert ToLower(a) == [ToLowerChar(a[0])] + ToLower(a[1..]);
      assert ToLower(b) == [ToLowerChar(b[0])] + ToLower(b[1..]);
      if ToLower(a) == ToLower(b) {
        assert ToLower(a)[1..] == ToLower(a[1..]);
        assert ToLower(b)[1..] == ToLower(b[1..]);
      }
    }
  }

  /**
   * String.replace(target, replacement) for characters: every occurrence of
   * target becomes replacement; the length and every other character stay.
   */
  function ReplaceChar(s: string, target: char, replacement: char): (r: string)
    ensures |r| == |s|
    ensures forall i :: 0 <= i < |s| ==> r[i] == (if s[i] == target then replacement else s[i])
  {
    if s == [] then [] else [if s[0] == target then replacement else s[0]] + ReplaceChar(s[1..], target, replacement)
  }
}

=== FILE: java_util.dfy ===
/** The java.util.List operations the lifecycle controller uses: contains and remove(Object). */
module JavaUtil {

  predicate NoDuplicates<T(==)>(xs: seq<T>) {
    forall i, j :: 0 <= i < j < |xs| ==> xs[i] != xs[j]
  }

  /** List.indexOf for an element that is present: the first position holding x. */
  function IndexOf<T(==)>(xs: seq<T>, x: T): (i: nat)
    requires x in xs
    ensures i < |xs| && xs[i] == x && x !in xs[..i]
  {
    if xs[0] == x then 0 else 1 + IndexOf(xs[1..], x)
  }

  /**
   * List.remove(Object): removes the first occurrence of x, if any. Exactly one
   * copy of x goes and every other element stays.
   */
  function RemoveFirst<T(==)>(xs: seq<T>, x: T): (r: seq<T>)
    ensures x !in xs ==> r == xs
    ensures x in xs ==> |r| == |xs| - 1
  {
    if xs == [] then [] else if xs[0] == x then xs[1..] else [xs[0]] + RemoveFirst(xs[1..], x)
  }

  /** Exactly one copy of x goes (if there is one) and every other element stays. */
  lemma {:induction false} RemoveFirstMultiset<T>(xs: seq<T>, x: T)
    ensures multiset(RemoveFirst(xs, x)) == multiset(xs) - multiset{x}
  {
    if xs != [] {
      assert xs == [xs[0]] + xs[1..];
      if xs[0] != x {
        RemoveFirstMultiset(xs[1..], x);
      }
    }
  }

  /** Removal keeps the order: the result is the list with its first x cut out. */
  lemma {:induction false} RemoveFirstAt<T>(xs: seq<T>, x: T)
    requires x in xs
    ensures RemoveFirst(xs, x) == xs[..IndexOf(xs, x)] + xs[IndexOf(xs, x) + 1..]
  {
    if xs[0] != x {
      var tail := xs[1..];
      var j := IndexOf(tail, x);
      RemoveFirstAt(tail, x);
      assert IndexOf(xs, x) == j + 1;
      calc {
        RemoveFirst(xs, x);
        [xs[0]] + RemoveFirst(tail, x);
        [xs[0]] + (tail[..j] + tail[j + 1..]);
        { assert [xs[0]] + tail[..j] == xs[..j + 1]; assert tail[j + 1..] == xs[j + 2..]; }
        xs[..j + 1] + xs[j + 2..];
      }
    }
  }

  /** Other elements keep their membership. */
  lemma RemoveFirstKeepsOthers<T>(xs: seq<T>, x: T, y: T)
    requires y != x
    ensures y in RemoveFirst(xs, x) <==> y in xs
  {
    RemoveFirstMultiset(xs, x);
    assert multiset(RemoveFirst(xs, x))[y] == multiset(xs)[y];
  }

  /** On a list without duplicates, removal leaves no copy of x and no duplicates. */
  lemma {:induction false} RemoveFirstNoDuplicates<T>(xs: seq<T>, x: T)
    requires NoDuplicates(xs)
    ensures NoDuplicates(RemoveFirst(xs, x)) && x !in RemoveFirst(xs, x)
  {
    if xs != [] {
      assert NoDuplicates(xs[1..]) by {
        forall i, j | 0 <= i < j < |xs[1..]| ensures xs[1..][i] != xs[1..][j] {
          assert xs[1..][i] == xs[i + 1] && xs[1..][j] == xs[j + 1];
        }
      }
      assert xs[0] !in xs[1..] by {
        forall j | 0 <= j < |xs[1..]| ensures xs[1..][j] != xs[0] {
          assert xs[1..][j] == xs[j + 1];
        }
      }
      if xs[0] != x {
        RemoveFirstNoDuplicates(xs[1..], x);
        var rest := RemoveFirst(xs[1..], x);
        assert xs[0] !in rest by {
          if xs[0] in rest { RemoveFirstKeepsOthers(xs[1..], x, xs[0]); }
        }
        var r := [xs[0]] + rest;
        forall i, j | 0 <= i < j < |r| ensures r[i] != r[j] {
          if i == 0 { assert r[j] == rest[j - 1]; } else { assert r[i] == rest[i - 1] && r[j] == rest[j - 1]; }
        }
      }
    }
  }
}

=== FILE: lifecycle.dfy ===
/**
 * The lifecycle controller of CorePlugin as functions over the host's
 * registry: how a command label is classified, what loading and unloading do
 * to the registry, and what a whole command does and reports. The imperative
 * methods in module CorePlugin are proved to follow these functions; the
 * lemmas here state what the controller promises.
 */
module Lifecycle {
  import opened Wrappers
  import opened JavaLang
  import opened JavaUtil
  import opened Registry

  /** Which steps a command label asks for. */
  datatype Flags = Flags(unload: bool, load: bool)

  /** The status lines the controller sends back to the command sender. */
  datatype Message =
    | Usage              // how to call the command
    | NotLoadedNote      // unload asked for a plugin that does not resolve
    | AlreadyLoadedNote  // load asked for a plugin that already resolves
    | Success            // the requested action completed
    | Failure            // the requested action did not complete

  /**
   * Whether the reflective look-up of each internal structure of the host
   * (the `plugins` list and the `lookupNames` table) produced an object of the
   * expected type. A structure that could not be fetched or cast is left alone.
   */
  datatype FieldAccess = FieldAccess(pluginsFound: bool, lookupNamesFound: bool)

  /** The registry after a command, and the lines sent back, in order. */
  datatype Reply = Reply(state: HostState, messages: seq<Message>)

  /** `preload` and `punload` unload, `pload` and `preload` load, ignoring case. */
  function Classify(commandLabel: string): (flags: Flags)
    ensures flags.unload && flags.load ==> EqualsIgnoreCase(commandLabel, "preload")
  {
    LowerKeywords();
    EqualsIgnoreCaseIff(commandLabel, "punload");
    EqualsIgnoreCaseIff(commandLabel, "pload");
    Flags(
      EqualsIgnoreCase(commandLabel, "preload") || EqualsIgnoreCase(commandLabel, "punload"),
      EqualsIgnoreCase(commandLabel, "pload") || EqualsIgnoreCase(commandLabel, "preload"))
  }

  /**
   * The key under which unload removes a plugin from the host's table: its
   * name with every space replaced by an underscore.
   */
  function LookupKey(name: string): (k: string)
    ensures |k| == |name| && ' ' !in k
    ensures forall i :: 0 <= i < |name| ==> k[i] == (if name[i] == ' ' then '_' else name[i])
  {
    ReplaceChar(name, ' ', '_')
  }

  /** The archive a plugin name refers to: plugins/<name>.jar. */
  function ArchivePath(name: string): (path: string)
    ensures |path| == |name| + 12
    ensures path[..8] == "plugins/" && path[|path| - 4..] == ".jar"
    ensures path[8..|path| - 4] == name
  {
    "plugins/" + name + ".jar"
  }

  /**
   * loadPlugin: only a present, non-empty name whose archive is a regular file
   * reaches the host; a plugin the host produces is then enabled, and a
   * rejected archive ends the step quietly.
   */
  function Load(s: HostState, key: string -> string, files: set<string>, name: Option<string>,
                outcome: LoadOutcome): (t: HostState)
    ensures |s.plugins| <= |t.plugins| && t.plugins[..|s.plugins|] == s.plugins
    ensures s.lookupNames.Keys <= t.lookupNames.Keys && s.enabled <= t.enabled
    ensures |s.calls| <= |t.calls| <= |s.calls| + 2 && t.calls[..|s.calls|] == s.calls
  {
    if name.Some? && |name.value| > 0 && ArchivePath(name.value) in files then
      var loaded := HostLoad(s, key, ArchivePath(name.value), outcome);
      if outcome.Accepted? then HostEnable(loaded, outcome.plugin) else loaded
    else s
  }

  /**
   * unloadPlugin for a non-null plugin: disable it, then remove it from the
   * list if it is there, then remove the key of its own name from the table if
   * it is there, each only when that structure was reached.
   */
  function Unload(s: HostState, h: Handle, access: FieldAccess): (t: HostState)
    ensures multiset(t.plugins) <= multiset(s.plugins) && |s.plugins| - 1 <= |t.plugins|
    ensures t.lookupNames.Keys <= s.lookupNames.Keys
    ensures forall k :: k in s.lookupNames && k !in t.lookupNames ==> k == LookupKey(h.name)
    ensures h !in t.enabled && t.enabled == s.enabled - {h}
    ensures t.calls == s.calls + [Disable(h)]
  {
    RemoveFirstMultiset(s.plugins, h);
    var disabled := HostDisable(s, h);
    var k := LookupKey(h.name);
    disabled.(
      plugins := if access.pluginsFound && h in disabled.plugins
                 then RemoveFirst(disabled.plugins, h) else disabled.plugins,
      lookupNames := if access.lookupNamesFound && k in disabled.lookupNames
                     then disabled.lookupNames - {k} else disabled.lookupNames)
  }

  /** The unload step of a command: unload the plugin the name resolves to, or send a note. */
  function UnloadStep(s: HostState, key: string -> string, name: string, access: FieldAccess): (r: Reply)
    ensures |r.messages| <= 1
    ensures r.messages == [] <==> IsRegistered(s, key, name)
    ensures !IsRegistered(s, key, name) ==> r == Reply(s, [NotLoadedNote])
    ensures IsRegistered(s, key, name) ==> r.state.calls == s.calls + [Disable(s.lookupNames[key(name)])]
  {
    match GetPlugin(s, key, name)
    case Some(h) => Reply(Unload(s, h, access), [])
    case None => Reply(s, [NotLoadedNote])
  }

  /** The load step of a command: load the name if it does not resolve, or send a note. */
  function LoadStep(s: HostState, key: string -> string, files: set<string>, name: string,
                    outcome: LoadOutcome): (r: Reply)
    ensures |r.messages| <= 1
    ensures r.messages == [] <==> !IsRegistered(s, key, name)
    ensures IsRegistered(s, key, name) ==> r == Reply(s, [AlreadyLoadedNote])
    ensures !IsRegistered(s, key, name) && ArchivePath(name) !in files ==> r.state == s
  {
    match GetPlugin(s, key, name)
    case None => Reply(Load(s, key, files, Some(name), outcome), [])
    case Some(_) => Reply(s, [AlreadyLoadedNote])
  }

  /** The closing line, from the flags and whether the name resolves after the steps. */
  function Status(flags: Flags, registeredAfter: bool): (m: Message)
    ensures m == Success || m == Failure
    ensures flags == Flags(false, false) ==> m == Failure
    ensures flags == Flags(true, true) ==> m == Success
  {
    if (flags.load && registeredAfter) || (flags.unload && !registeredAfter) then Success else Failure
  }

  /**
   * onCommand: without an argument only the usage line is sent; otherwise the
   * unload step (if asked for) runs before the load step (if asked for), and
   * the closing status line follows whatever notes they sent.
   */
  function Command(s: HostState, key: string -> string, files: set<string>, commandLabel: string,
                   args: seq<string>, access: FieldAccess, outcome: LoadOutcome): (r: Reply)
    ensures 1 <= |r.messages| <= 3
    ensures |args| > 0 ==> Usage !in r.messages
    ensures |args| > 0 ==> r.messages[|r.messages| - 1] in {Success, Failure}
  {
    if |args| > 0 then
      var flags := Classify(commandLabel);
      var name := args[0];
      var u := if flags.unload then UnloadStep(s, key, name, access) else Reply(s, []);
      var l := if flags.load then LoadStep(u.state, key, files, name, outcome) else Reply(u.state, []);
      Reply(l.state, u.messages + l.messages + [Status(flags, IsRegistered(l.state, key, name))])
    else
      Reply(s, [Usage])
  }

  // ---------------------------------------------------------------------------
  // Label classification

  lemma LowerKeywords()
    ensures ToLower("preload") == "preload"
    ensures ToLower("punload") == "punload"
    ensures ToLower("pload") == "pload"
  {
  }

  /** The four classes of labels: punload unloads only, pload loads only, preload does both, others nothing. */
  lemma ClassifyCases(commandLabel: string)
    ensures Classify(commandLabel) == Flags(true, false) <==> EqualsIgnoreCase(commandLabel, "punload")
    ensures Classify(commandLabel) == Flags(false, true) <==> EqualsIgnoreCase(commandLabel, "pload")
    ensures Classify(commandLabel) == Flags(true, true) <==> EqualsIgnoreCase(commandLabel, "preload")
    ensures Classify(commandLabel) == Flags(false, false) <==>
      !EqualsIgnoreCase(commandLabel, "punload") && !EqualsIgnoreCase(commandLabel, "pload") && !EqualsIgnoreCase(commandLabel, "preload")
  {
    LowerKeywords();
    EqualsIgnoreCaseIff(commandLabel, "preload");
    EqualsIgnoreCaseIff(commandLabel, "punload");
    EqualsIgnoreCaseIff(commandLabel, "pload");
  }

  /** Labels that differ only in letter case are classified alike. */
  lemma ClassifyIgnoresCase(a: string, b: string)
    requires ToLower(a) == ToLower(b)
    ensures Classify(a) == Classify(b)
  {
    EqualsIgnoreCaseIff(a, "preload");
    EqualsIgnoreCaseIff(a, "punload");
    EqualsIgnoreCaseIff(a, "pload");
    EqualsIgnoreCaseIff(b, "preload");
    EqualsIgnoreCaseIff(b, "punload");
    EqualsIgnoreCaseIff(b, "pload");
  }

  // ---------------------------------------------------------------------------
  // The removal key

  /** A name without spaces is its own key. */
  lemma LookupKeyOfSpaceFree(name: string)
    requires ' ' !in name
    ensures LookupKey(name) == name
  {
  }

  // ---------------------------------------------------------------------------
  // Loading

  /** The guard of loadPlugin: a present, non-empty name whose archive is a regular file. */
  predicate Loadable(files: set<string>, name: Option<string>) {
    name.Some? && |name.value| > 0 && ArchivePath(name.value) in files
  }

  /**
   * loadPlugin changes nothing unless its guard holds; then it calls the host's
   * loader once; a rejection leaves the registry as it was, and an accepted
   * plugin is listed, filed under its key and enabled, in that order.
   */
  lemma LoadEffect(s: HostState, key: string -> string, files: set<string>, name: Option<string>,
                   outcome: LoadOutcome)
    ensures !Loadable(files, name) ==> Load(s, key, files, name, outcome) == s
    ensures Loadable(files, name) && outcome.Rejected? ==>
      Load(s, key, files, name, outcome) == s.(calls := s.calls + [LoadArchive(ArchivePath(name.value))])
    ensures Loadable(files, name) && outcome.Accepted? ==>
      var t := Load(s, key, files, name, outcome);
      && t.plugins == s.plugins + [outcome.plugin]
      && t.lookupNames == s.lookupNames[key(outcome.plugin.name) := outcome.plugin]
      && t.enabled == s.enabled + {outcome.plugin}
      && t.calls == s.calls + [LoadArchive(ArchivePath(name.value)), Enable(outcome.plugin)]
  {
  }

  /**
   * For a name that is not registered, loading registers it exactly when its
   * archive is a regular file and the host accepts it, provided the host files
   * the new plugin under the same key as the name; the registry stays consistent.
   */
  lemma LoadRegistersIffArchive(s: HostState, key: string -> string, files: set<string>, name: string,
                                outcome: LoadOutcome)
    requires Consistent(s, key) && !IsRegistered(s, key, name) && name != []
    requires outcome.Accepted? ==> outcome.plugin !in s.plugins && key(outcome.plugin.name) == key(name)
    ensures IsRegistered(Load(s, key, files, Some(name), outcome), key, name) <==>
      ArchivePath(name) in files && outcome.Accepted?
    ensures Consistent(Load(s, key, files, Some(name), outcome), key)
  {
    if ArchivePath(name) in files && outcome.Accepted? {
      HostLoadPreservesConsistency(s, key, ArchivePath(name), outcome.plugin);
    }
  }

  // ---------------------------------------------------------------------------
  // Unloading

  /**
   * unloadPlugin disables the plugin (the only host call it makes), cuts the
   * first copy of it out of the list when the list was reached, removes the key
   * of its own name from the table when the table was reached, and leaves every
   * other list element, in order, and every other table entry as it was.
   */
  lemma UnloadEffect(s: HostState, h: Handle, access: FieldAccess)
    ensures Unload(s, h, access).enabled == s.enabled - {h}
    ensures Unload(s, h, access).calls == s.calls + [Disable(h)]
    ensures access.pluginsFound && h in s.plugins ==>
      Unload(s, h, access).plugins == s.plugins[..IndexOf(s.plugins, h)] + s.plugins[IndexOf(s.plugins, h) + 1..]
    ensures !access.pluginsFound || h !in s.plugins ==> Unload(s, h, access).plugins == s.plugins
    ensures access.lookupNamesFound ==> LookupKey(h.name) !in Unload(s, h, access).lookupNames
    ensures forall k :: k in Unload(s, h, access).lookupNames ==>
      k in s.lookupNames && Unload(s, h, access).lookupNames[k] == s.lookupNames[k]
    ensures forall k :: k in s.lookupNames && (k != LookupKey(h.name) || !access.lookupNamesFound) ==>
      k in Unload(s, h, access).lookupNames
  {
    if access.pluginsFound && h in s.plugins {
      RemoveFirstAt(s.plugins, h);
    }
  }

  /**
   * With both structures reached and the host keying the plugin's name the way
   * unload does, unloading a listed plugin removes it from both structures,
   * leaves it disabled and unresolvable, and keeps the registry consistent.
   */
  lemma UnloadPreservesConsistency(s: HostState, key: string -> string, h: Handle, access: FieldAccess)
    requires Consistent(s, key) && h in s.plugins
    requires access == FieldAccess(true, true)
    requires key(h.name) == LookupKey(h.name)
    ensures Consistent(Unload(s, h, access), key)
    ensures h !in Unload(s, h, access).plugins && h !in Unload(s, h, access).enabled
    ensures !IsRegistered(Unload(s, h, access), key, h.name)
  {
    var t := Unload(s, h, access);
    var k := LookupKey(h.name);
    RemoveFirstNoDuplicates(s.plugins, h);
    forall g | g in t.plugins
      ensures key(g.name) in t.lookupNames && t.lookupNames[key(g.name)] == g
    {
      RemoveFirstKeepsOthers(s.plugins, h, g);
      assert s.lookupNames[key(g.name)] == g;
    }
    forall k' | k' in t.lookupNames
      ensures t.lookupNames[k'] in t.plugins && key(t.lookupNames[k'].name) == k'
    {
      var g := s.lookupNames[k'];
      assert g != h;
      RemoveFirstKeepsOthers(s.plugins, h, g);
    }
  }

  /**
   * When the table could not be reached, the unloaded plugin's name still
   * resolves: only the best-effort part of the removal is lost.
   */
  lemma UnloadWithoutTableKeepsName(s: HostState, key: string -> string, h: Handle, access: FieldAccess)
    requires Consistent(s, key) && h in s.plugins && !access.lookupNamesFound
    ensures IsRegistered(Unload(s, h, access), key, h.name)
    ensures h !in Unload(s, h, access).enabled
  {
  }

  // ---------------------------------------------------------------------------
  // Commands

  /** Without an argument only the usage line is sent and nothing else happens. */
  lemma NoArgumentsUsageOnly(s: HostState, key: string -> string, files: set<string>, commandLabel: string,
                             access: FieldAccess, outcome: LoadOutcome)
    ensures Command(s, key, files, commandLabel, [], access, outcome) == Reply(s, [Usage])
  {
  }

  /**
   * Whatever the label, a command with an argument ends with exactly one
   * status line, which is Success exactly when a requested load left the name
   * resolving or a requested unload left it unresolved.
   */
  lemma StatusReflectsRegistration(s: HostState, key: string -> string, files: set<string>,
                                   commandLabel: string, args: seq<string>, access: FieldAccess,
                                   outcome: LoadOutcome)
    requires |args| > 0
    ensures var r := Command(s, key, files, commandLabel, args, access, outcome);
      && |r.messages| > 0
      && Success !in r.messages[..|r.messages| - 1] && Failure !in r.messages[..|r.messages| - 1]
      && (r.messages[|r.messages| - 1] == Success <==>
            (Classify(commandLabel).load && IsRegistered(r.state, key, args[0])) ||
            (Classify(commandLabel).unload && !IsRegistered(r.state, key, args[0])))
      && (r.messages[|r.messages| - 1] == Failure <==> r.messages[|r.messages| - 1] != Success)
  {
    var flags := Classify(commandLabel);
    var u := if flags.unload then UnloadStep(s, key, args[0], access) else Reply(s, []);
    var l := if flags.load then LoadStep(u.state, key, files, args[0], outcome) else Reply(u.state, []);
    var r := Command(s, key, files, commandLabel, args, access, outcome);
    var status := Status(flags, IsRegistered(l.state, key, args[0]));
    assert r == Reply(l.state, u.messages + l.messages + [status]);
    assert r.messages[|r.messages| - 1] == status;
    assert r.messages[..|u.messages| + |l.messages|] == u.messages + l.messages;
  }

  /** A label that is none of the three does nothing and reports failure. */
  lemma UnknownLabelFails(s: HostState, key: string -> string, files: set<string>, commandLabel: string,
                          args: seq<string>, access: FieldAccess, outcome: LoadOutcome)
    requires |args| > 0
    requires !EqualsIgnoreCase(commandLabel, "punload") && !EqualsIgnoreCase(commandLabel, "pload")
    requires !EqualsIgnoreCase(commandLabel, "preload")
    ensures Command(s, key, files, commandLabel, args, access, outcome) == Reply(s, [Failure])
  {
    ClassifyCases(commandLabel);
  }

  /**
   * Unloading a name that does not resolve sends the note, changes nothing
   * (no mutating host call is made; only the lookup) and still reports
   * success, since the name is unresolved afterwards.
   */
  lemma UnloadOfUnregistered(s: HostState, key: string -> string, files: set<string>, commandLabel: string,
                             args: seq<string>, access: FieldAccess, outcome: LoadOutcome)
    requires |args| > 0 && EqualsIgnoreCase(commandLabel, "punload") && !IsRegistered(s, key, args[0])
    ensures Command(s, key, files, commandLabel, args, access, outcome) == Reply(s, [NotLoadedNote, Success])
  {
    ClassifyCases(commandLabel);
  }

  /**
   * Loading a name that already resolves sends the note, changes nothing and
   * then reports success, since the name resolves afterwards.
   */
  lemma LoadOfRegistered(s: HostState, key: string -> string, files: set<string>, commandLabel: string,
                         args: seq<string>, access: FieldAccess, outcome: LoadOutcome)
    requires |args| > 0 && EqualsIgnoreCase(commandLabel, "pload") && IsRegistered(s, key, args[0])
    ensures Command(s, key, files, commandLabel, args, access, outcome) == Reply(s, [AlreadyLoadedNote, Success])
  {
    ClassifyCases(commandLabel);
  }

  /**
   * With both flags set the success test is "registered or not registered":
   * a reload reports success whatever happened to the plugin.
   */
  lemma PreloadAlwaysReportsSuccess(s: HostState, key: string -> string, files: set<string>,
                                    commandLabel: string, args: seq<string>, access: FieldAccess,
                                    outcome: LoadOutcome)
    requires |args| > 0 && EqualsIgnoreCase(commandLabel, "preload")
    ensures var r := Command(s, key, files, commandLabel, args, access, outcome);
      |r.messages| > 0 && r.messages[|r.messages| - 1] == Success
  {
    ClassifyCases(commandLabel);
  }

  /**
   * Reloading a name that does not resolve sends the "not loaded" note and
   * then loads it like pload would, since the load guard is checked after the
   * unload step.
   */
  lemma PreloadOfUnregistered(s: HostState, key: string -> string, files: set<string>, commandLabel: string,
                              args: seq<string>, access: FieldAccess, outcome: LoadOutcome)
    requires |args| > 0 && EqualsIgnoreCase(commandLabel, "preload") && !IsRegistered(s, key, args[0])
    ensures Command(s, key, files, commandLabel, args, access, outcome)
         == Reply(Load(s, key, files, Some(args[0]), outcome), [NotLoadedNote, Success])
  {
    ClassifyCases(commandLabel);
  }

  /**
   * Unloading a registered plugin removes, from the table, the key of the
   * plugin's own name (not of the command's argument) and no other key.
   */
  lemma UnloadRemovesHandleKey(s: HostState, key: string -> string, files: set<string>, commandLabel: string,
                               args: seq<string>, access: FieldAccess, outcome: LoadOutcome)
    requires |args| > 0 && EqualsIgnoreCase(commandLabel, "punload") && IsRegistered(s, key, args[0])
    requires access.lookupNamesFound
    ensures var t := Command(s, key, files, commandLabel, args, access, outcome).state;
      var h := s.lookupNames[key(args[0])];
      && LookupKey(h.name) !in t.lookupNames
      && (forall k :: k in s.lookupNames && k != LookupKey(h.name) ==> k in t.lookupNames && t.lookupNames[k] == s.lookupNames[k])
      && t.calls == s.calls + [Disable(h)]
  {
    ClassifyCases(commandLabel);
    UnloadEffect(s, s.lookupNames[key(args[0])], access);
  }

  /**
   * Unloading a registered plugin from a consistent registry, with both
   * structures reached and the host keying names the way unload does, makes
   * the name unresolvable, keeps the registry consistent and reports success.
   */
  lemma UnloadCommandUnregisters(s: HostState, key: string -> string, files: set<string>, commandLabel: string,
                                 args: seq<string>, access: FieldAccess, outcome: LoadOutcome)
    requires |args| > 0 && EqualsIgnoreCase(commandLabel, "punload")
    requires Consistent(s, key) && IsRegistered(s, key, args[0])
    requires access == FieldAccess(true, true)
    requires key(s.lookupNames[key(args[0])].name) == LookupKey(s.lookupNames[key(args[0])].name)
    ensures var r := Command(s, key, files, commandLabel, args, access, outcome);
      && r.messages == [Success]
      && Consistent(r.state, key)
      && !IsRegistered(r.state, key, args[0])
      && r.state.calls == s.calls + [Disable(s.lookupNames[key(args[0])])]
  {
    ClassifyCases(commandLabel);
    UnloadPreservesConsistency(s, key, s.lookupNames[key(args[0])], access);
  }

  /**
   * Loading a name that does not resolve reports success exactly when its
   * archive is a regular file and the host accepts it (filing the new plugin
   * under the name's key); the registry stays consistent either way.
   */
  lemma LoadCommandRegistersIffArchive(s: HostState, key: string -> string, files: set<string>,
                                       commandLabel: string, args: seq<string>, access: FieldAccess,
                                       outcome: LoadOutcome)
    requires |args| > 0 && args[0] != [] && EqualsIgnoreCase(commandLabel, "pload")
    requires Consistent(s, key) && !IsRegistered(s, key, args[0])
    requires outcome.Accepted? ==> outcome.plugin !in s.plugins && key(outcome.plugin.name) == key(args[0])
    ensures var r := Command(s, key, files, commandLabel, args, access, outcome);
      && r.messages == [if ArchivePath(args[0]) in files && outcome.Accepted? then Success else Failure]
      && IsRegistered(r.state, key, args[0]) == (ArchivePath(args[0]) in files && outcome.Accepted?)
      && Consistent(r.state, key)
  {
    ClassifyCases(commandLabel);
    LoadRegistersIffArchive(s, key, files, args[0], outcome);
  }

  /**
   * Reloading a registered plugin disables it and takes it out of both
   * structures before the archive is loaded again; when the archive is still a
   * regular file and the host accepts it, the name resolves again, the new
   * plugin is enabled, the registry is consistent and success is reported.
   */
  lemma PreloadReloads(s: HostState, key: string -> string, files: set<string>, commandLabel: string,
                       args: seq<string>, access: FieldAccess, outcome: LoadOutcome)
    requires |args| > 0 && args[0] != [] && EqualsIgnoreCase(commandLabel, "preload")
    requires Consistent(s, key) && IsRegistered(s, key, args[0])
    requires access == FieldAccess(true, true)
    requires key(s.lookupNames[key(args[0])].name) == LookupKey(s.lookupNames[key(args[0])].name)
    requires ArchivePath(args[0]) in files
    requires outcome.Accepted? && outcome.plugin !in s.plugins && key(outcome.plugin.name) == key(args[0])
    ensures var r := Command(s, key, files, commandLabel, args, access, outcome);
      && r.messages == [Success]
      && Consistent(r.state, key)
      && r.state.lookupNames[key(args[0])] == outcome.plugin
      && outcome.plugin in r.state.enabled
      && r.state.calls == s.calls + [Disable(s.lookupNames[key(args[0])]),
                                     LoadArchive(ArchivePath(args[0])), Enable(outcome.plugin)]
  {
    ClassifyCases(commandLabel);
    var h := s.lookupNames[key(args[0])];
    UnloadPreservesConsistency(s, key, h, access);
    var u := Unload(s, h, access);
    assert outcome.plugin !in u.plugins by {
      RemoveFirstKeepsOthers(s.plugins, h, outcome.plugin);
    }
    LoadRegistersIffArchive(u, key, files, args[0], outcome);
  }

  /**
   * Unloading a registered plugin leaves nothing behind that stops it from
   * being loaded again: a following load of the same name, with the archive
   * still a regular file and accepted by the host, reports success and makes
   * the name resolve to the new plugin.
   */
  lemma UnloadThenLoadSucceeds(s: HostState, key: string -> string, files: set<string>, unloadLabel: string,
                               loadLabel: string, args: seq<string>, access: FieldAccess, outcome: LoadOutcome)
    requires |args| > 0 && args[0] != []
    requires EqualsIgnoreCase(unloadLabel, "punload") && EqualsIgnoreCase(loadLabel, "pload")
    requires Consistent(s, key) && IsRegistered(s, key, args[0])
    requires access == FieldAccess(true, true)
    requires key(s.lookupNames[key(args[0])].name) == LookupKey(s.lookupNames[key(args[0])].name)
    requires ArchivePath(args[0]) in files
    requires outcome.Accepted? && outcome.plugin !in s.plugins && key(outcome.plugin.name) == key(args[0])
    ensures var first := Command(s, key, files, unloadLabel, args, access, outcome);
      var second := Command(first.state, key, files, loadLabel, args, access, outcome);
      && first.messages == [Success] && second.messages == [Success]
      && Consistent(second.state, key)
      && second.state.lookupNames[key(args[0])] == outcome.plugin
  {
    var h := s.lookupNames[key(args[0])];
    UnloadCommandUnregisters(s, key, files, unloadLabel, args, access, outcome);
    var first := Command(s, key, files, unloadLabel, args, access, outcome);
    assert outcome.plugin !in first.state.plugins by {
      RemoveFirstKeepsOthers(s.plugins, h, outcome.plugin);
    }
    LoadCommandRegistersIffArchive(first.state, key, files, loadLabel, args, access, outcome);
  }

  /**
   * When the unload step of a reload leaves the name resolvable (the table was
   * not reached, or the host keys the name differently), the load guard sees
   * the name as loaded: the "already loaded" note is sent, no load is
   * attempted, success is reported, and the plugin is left disabled.
   */
  lemma PreloadLeavesDisabledWhenNameSurvives(s: HostState, key: string -> string, files: set<string>,
                                              commandLabel: string, args: seq<string>, access: FieldAccess,
                                              outcome: LoadOutcome)
    requires |args| > 0 && EqualsIgnoreCase(commandLabel, "preload") && IsRegistered(s, key, args[0])
    requires IsRegistered(Unload(s, s.lookupNames[key(args[0])], access), key, args[0])
    ensures var h := s.lookupNames[key(args[0])];
      var r := Command(s, key, files, commandLabel, args, access, outcome);
      && r == Reply(Unload(s, h, access), [AlreadyLoadedNote, Success])
      && h !in r.state.enabled
      && IsRegistered(r.state, key, args[0])
  {
    ClassifyCases(commandLabel);
  }

  /**
   * An instance of the above: on a consistent registry, when the table could
   * not be reached, a reload never reloads and leaves the plugin disabled.
   */
  lemma PreloadWithoutTableLeavesDisabled(s: HostState, key: string -> string, files: set<string>,
                                          commandLabel: string, args: seq<string>, outcome: LoadOutcome)
    requires |args| > 0 && EqualsIgnoreCase(commandLabel, "preload")
    requires Consistent(s, key) && IsRegistered(s, key, args[0])
    ensures var h := s.lookupNames[key(args[0])];
      var r := Command(s, key, files, commandLabel, args, FieldAccess(true, false), outcome);
      && r.messages == [AlreadyLoadedNote, Success]
      && h !in r.state.enabled && h !in r.state.plugins
      && r.state.calls == s.calls + [Disable(h)]
      && r.state.plugins == RemoveFirst(s.plugins, h)
      && r.state.lookupNames == s.lookupNames
      && !Consistent(r.state, key)
  {
    var h := s.lookupNames[key(args[0])];
    var access := FieldAccess(true, false);
    UnloadWithoutTableKeepsName(s, key, h, access);
    PreloadLeavesDisabledWhenNameSurvives(s, key, files, commandLabel, args, access, outcome);
    RemoveFirstNoDuplicates(s.plugins, h);
  }

  /**
   * A reload can lose the plugin and still report success: when the unload
   * step removes the name and the archive is missing or the host rejects it,
   * the plugin is gone from the list, the table and the enabled set, the name
   * no longer resolves, and the only line sent is Success.
   */
  lemma PreloadWithoutArchiveLosesPlugin(s: HostState, key: string -> string, files: set<string>,
                                         commandLabel: string, args: seq<string>, outcome: LoadOutcome)
    requires |args| > 0 && EqualsIgnoreCase(commandLabel, "preload")
    requires Consistent(s, key) && IsRegistered(s, key, args[0])
    requires key(s.lookupNames[key(args[0])].name) == LookupKey(s.lookupNames[key(args[0])].name)
    requires ArchivePath(args[0]) !in files || outcome.Rejected?
    ensures var h := s.lookupNames[key(args[0])];
      var r := Command(s, key, files, commandLabel, args, FieldAccess(true, true), outcome);
      && r.messages == [Success]
      && !IsRegistered(r.state, key, args[0])
      && h !in r.state.plugins && h !in r.state.enabled
      && Consistent(r.state, key)
  {
    var h := s.lookupNames[key(args[0])];
    var access := FieldAccess(true, true);
    ClassifyCases(commandLabel);
    UnloadPreservesConsistency(s, key, h, access);
    var u := Unload(s, h, access);
    assert !IsRegistered(u, key, args[0]) by {
      assert key(args[0]) == key(h.name);
    }
    LoadEffect(u, key, files, Some(args[0]), outcome);
  }
}

=== FILE: plugin_manager.dfy ===
/**
 * The host runtime's plugin manager as mutable state. Its fields are the
 * structures the lifecycle controller reads and, on unload, changes in place.
 * Which archive paths are regular files, and how the host keys its table, are
 * fixed for the lifetime of the object.
 */
module Host {
  import opened Wrappers
  import opened Registry

  class PluginManager {
    var plugins: seq<Handle>
    var lookupNames: map<string, Handle>
    var enabled: set<Handle>
    var calls: seq<HostCall>
    /** How the host turns a plugin name into a table key. */
    const key: string -> string
    /** The paths that exist as regular files. */
    const files: set<string>

    constructor (key: string -> string, files: set<string>, initial: HostState)
      ensures State() == initial && this.key == key && this.files == files
    {
      this.key := key;
      this.files := files;
      plugins := initial.plugins;
      lookupNames := initial.lookupNames;
      enabled := initial.enabled;
      calls := initial.calls;
    }

    function State(): HostState
      reads this
    {
      HostState(plugins, lookupNames, enabled, calls)
    }

    /** getPlugin(name); None stands for null. */
    function GetPlugin(name: string): (p: Option<Handle>)
      reads this
      ensures p.Some? <==> key(name) in lookupNames
      ensures p.Some? ==> p.value in lookupNames.Values && p.value == lookupNames[key(name)]
    {
      Registry.GetPlugin(State(), key, name)
    }

    /** File.exists() && File.isFile() for the given path. */
    predicate IsFile(path: string) {
      path in files
    }

    /** loadPlugin(File): None when the loader raised one of its exceptions. */
    method LoadPlugin(path: string, outcome: LoadOutcome) returns (p: Option<Handle>)
      modifies this
      ensures State() == HostLoad(old(State()), key, path, outcome)
      ensures p == if outcome.Accepted? then Some(outcome.plugin) else None
    {
      calls := calls + [LoadArchive(path)];
      match outcome
      case Rejected(_) =>
        p := None;
      case Accepted(h) =>
        plugins := plugins + [h];
        lookupNames := lookupNames[key(h.name) := h];
        p := Some(h);
    }

    method EnablePlugin(h: Handle)
      modifies this
      ensures State() == HostEnable(old(State()), h)
    {
      enabled := enabled + {h};
      calls := calls + [Enable(h)];
    }

    method DisablePlugin(h: Handle)
      modifies this
      ensures State() == HostDisable(old(State()), h)
    {
      enabled := enabled - {h};
      calls := calls + [Disable(h)];
    }
  }
}

=== FILE: registry.dfy ===
/**
 * The host runtime's plugin bookkeeping as a value: the ordered `plugins`
 * list, the `lookupNames` table, the set of enabled plugins, and a log of the
 * host calls made so far (archive loads, enables and disables), so that the
 * order of the lifecycle steps can be stated.
 *
 * How the host turns a name into a lookup key is not assumed: it is the
 * parameter `key`. The host's public lookup (getPlugin) reads `lookupNames`
 * at key(name), and a plugin the host loads is filed under key(its name).
 */
module Registry {
  import opened Wrappers
  import opened JavaUtil

  /** A loaded plugin: an identity and the name the plugin reports (getName). */
  datatype Handle = Handle(id: nat, name: string)

  /** A call into the host runtime's public plugin API. */
  datatype HostCall =
    | LoadArchive(path: string)
    | Enable(plugin: Handle)
    | Disable(plugin: Handle)

  datatype HostState = HostState(
    plugins: seq<Handle>,
    lookupNames: map<string, Handle>,
    enabled: set<Handle>,
    calls: seq<HostCall>)

  /** The exceptions the host's archive loader may raise. */
  datatype Rejection = UnknownDependency | InvalidPlugin | InvalidDescription

  /** What the host's loader does with an archive: reject it, or produce a plugin. */
  datatype LoadOutcome = Rejected(reason: Rejection) | Accepted(plugin: Handle)

  /** The host's public lookup by name (PluginManager.getPlugin); None stands for null. */
  function GetPlugin(s: HostState, key: string -> string, name: string): (p: Option<Handle>)
    ensures p.Some? <==> IsRegistered(s, key, name)
    ensures p.Some? ==> p.value in s.lookupNames.Values
    ensures Consistent(s, key) && p.Some? ==> p.value in s.plugins && key(p.value.name) == key(name)
  {
    if key(name) in s.lookupNames then Some(s.lookupNames[key(name)]) else None
  }

  predicate IsRegistered(s: HostState, key: string -> string, name: string) {
    key(name) in s.lookupNames
  }

  /**
   * The invariant the host keeps between the two structures: no plugin is
   * listed twice, every listed plugin is filed under the key of its own name,
   * and every entry of the table is a listed plugin filed under its own key.
   */
  ghost predicate Consistent(s: HostState, key: string -> string) {
    && NoDuplicates(s.plugins)
    && (forall h :: h in s.plugins ==> key(h.name) in s.lookupNames && s.lookupNames[key(h.name)] == h)
    && (forall k :: k in s.lookupNames ==> s.lookupNames[k] in s.plugins && key(s.lookupNames[k].name) == k)
  }

  /**
   * The host's loadPlugin(File), as an effect on the registry: the call is
   * made; a rejected archive changes nothing else, an accepted one is appended
   * to the list and filed in the table.
   */
  function HostLoad(s: HostState, key: string -> string, path: string, outcome: LoadOutcome): (t: HostState)
    ensures |s.plugins| <= |t.plugins| <= |s.plugins| + 1 && t.plugins[..|s.plugins|] == s.plugins
    ensures s.lookupNames.Keys <= t.lookupNames.Keys && t.enabled == s.enabled
    ensures t.calls == s.calls + [LoadArchive(path)]
    ensures outcome.Rejected? ==> t.plugins == s.plugins && t.lookupNames == s.lookupNames
  {
    var called := s.(calls := s.calls + [LoadArchive(path)]);
    match outcome
    case Rejected(_) => called
    case Accepted(h) => called.(plugins := s.plugins + [h], lookupNames := s.lookupNames[key(h.name) := h])
  }

  /** The host's enablePlugin. */
  function HostEnable(s: HostState, h: Handle): (t: HostState)
    ensures t.plugins == s.plugins && t.lookupNames == s.lookupNames
    ensures h in t.enabled && t.enabled - {h} == s.enabled - {h}
  {
    s.(enabled := s.enabled + {h}, calls := s.calls + [Enable(h)])
  }

  /** The host's disablePlugin: the plugin stays registered. */
  function HostDisable(s: HostState, h: Handle): (t: HostState)
    ensures t.plugins == s.plugins && t.lookupNames == s.lookupNames
    ensures h !in t.enabled && t.enabled + {h} == s.enabled + {h}
  {
    s.(enabled := s.enabled - {h}, calls := s.calls + [Disable(h)])
  }

  /** Loading a plugin that is neither listed nor filed under its key keeps the invariant. */
  lemma HostLoadPreservesConsistency(s: HostState, key: string -> string, path: string, h: Handle)
    requires Consistent(s, key)
    requires h !in s.plugins && key(h.name) !in s.lookupNames
    ensures Consistent(HostLoad(s, key, path, Accepted(h)), key)
    ensures IsRegistered(HostLoad(s, key, path, Accepted(h)), key, h.name)
  {
    var t := HostLoad(s, key, path, Accepted(h));
    forall i, j | 0 <= i < j < |t.plugins| ensures t.plugins[i] != t.plugins[j] {
      if j == |s.plugins| {
        assert t.plugins[i] == s.plugins[i];
      }
    }
  }
}

=== FILE: wrappers.dfy ===
/** The optional value used wherever the source has a reference that may be null. */
module Wrappers {
  datatype Option<+T> = None | Some(value: T)
}
